=== FILE: README.md ===
# Chat state and response shaping of the AI portfolio

A Dafny model of the logic behind the portfolio's "career agent" chat:

- **Conversation store** (`ChatProvider` / `useChat`): an append-only log of `{role, content}` messages and an `isLoading` flag. The log is mirrored to session storage under `chat_history` after every change and restored from there on mount. Session storage is a `map<string, string>`. The serialisation is the exact text `JSON.stringify` writes for the log, and its parser reads it back. The round trip is proved, not assumed (modules `Json` and `ChatContext`).
- **Chat widget submit** (`handleSubmit`): one transition over `(input, messages, isLoading)`, split at the `await` into `BeginSubmit` and `CompleteSubmit`. The agent call is an abstract `AgentOutcome`: `Answered(answer)` or `ConnectionFailed`. The module also states when the text field and the send button are disabled, and gives `trim()` with ECMAScript's whitespace set (module `ChatWidget`).
- **Backend response shaping**: `format_docs` (join with `"\n\n"`) and the `/chat` and `/analyze` endpoints. The vector store search and the prompt/model/parser stages are function parameters that either return a value or raise (module `Backend`).

Files: `wrappers.dfy` (Option, Result), `json.dfy`, `chat_context.dfy`, `chat_widget.dfy`, `backend.dfy`.

## Model

| member | source | states |
|---|---|---|
| Json.QuoteRoundTrip | frontend/src/context/ChatContext.tsx:29-33 | the string literal `JSON.stringify` writes for a message field is read back by `JSON.parse` as the same string, whatever text follows it |
| ChatContext.LogRoundTrip | frontend/src/context/ChatContext.tsx:29-33 | parsing the saved text of a log gives back exactly that log |
| ChatContext.SaveHistory | frontend/src/context/ChatContext.tsx:32-34 | the save effect leaves `chat_history` holding text that parses to the current log, and every other session key unchanged |
| ChatContext.AddMessage | frontend/src/context/ChatContext.tsx:37-39 | `addMessage` grows the log by exactly one, keeps the old log as a prefix, puts `{role, content}` last, leaves `isLoading` alone, and leaves the session copy current |
| ChatContext.SetIsLoading | frontend/src/context/ChatContext.tsx:23 | `setIsLoading` sets the flag and changes neither the log nor session storage |
| ChatContext.AddAllReadsBack | frontend/src/context/ChatContext.tsx:37-39 | appending N messages one by one and reading the log gives the old log followed by those N messages in order (with `AddAllKeepsFlagAndStorage`: the busy flag is unchanged and the session copy stays current) |
| ChatContext.Restore | frontend/src/context/ChatContext.tsx:27-30 | a missing or empty saved value leaves the log empty; a non-empty value replaces it with its parse, or raises when it does not parse |
| ChatContext.Mount | frontend/src/context/ChatContext.tsx:22-34 | a freshly mounted provider is not loading and its session copy is current; session storage gains at most the `chat_history` key and every other key keeps its value; with nothing saved its log is empty; with a non-empty saved value the mount succeeds exactly when that value parses, and the log is its parse; otherwise it raises the parse error |
| ChatContext.ReloadReproduces | frontend/src/context/ChatContext.tsx:25-34 | reloading over the storage a provider left gives back the same log and storage, with `isLoading` false |
| ChatContext.MountIdempotent | frontend/src/context/ChatContext.tsx:27-34 | mounting again over what a mount left changes nothing |
| ChatContext.StrictModeMountLosesHistory | frontend/src/context/ChatContext.tsx:27-34 | with the mount effects run twice, as development StrictMode does, a saved non-empty log is lost and `[]` is saved (see Findings) |
| ChatContext.LazyMount | frontend/src/context/ChatContext.tsx:22-30 | restoring the saved log once, before the first save, gives the same provider as a single mount, whether the save effect runs once or, as development StrictMode does, twice |
| ChatContext.LazyMountReproduces | frontend/src/context/ChatContext.tsx:25-34 | with the corrected mount a reload gives back the saved log |
| ChatContext.UseChat | frontend/src/context/ChatContext.tsx:49-54 | `useChat` returns the provider's value when one encloses it, and otherwise raises with the fixed message rather than returning a default |
| ChatWidget.TrimSpec | frontend/src/components/ChatWidget.tsx:27 | `trim()` gives a contiguous slice of the input that neither starts nor ends with a whitespace code point, and the code points before and after it are all whitespace |
| ChatWidget.BlankIffAllWhitespace | frontend/src/components/ChatWidget.tsx:27 | `!input.trim()` holds exactly for inputs made only of whitespace |
| ChatWidget.BeginSubmit | frontend/src/components/ChatWidget.tsx:27-34 | the guard passes exactly for non-blank input while not loading; then the input is cleared, the untrimmed text is appended as a `user` message, and `isLoading` is set; session storage gains at most the `chat_history` key and every other key keeps its value |
| ChatWidget.CompleteSubmit | frontend/src/components/ChatWidget.tsx:36-46 | after the call, exactly one message is appended: `assistant(answer)` on success or the fixed `system` error on failure, and `isLoading` is cleared on both paths; session storage gains at most the `chat_history` key and every other key keeps its value |
| ChatWidget.Submit | frontend/src/components/ChatWidget.tsx:25-47 | a rejected submit changes nothing; an accepted one clears the input, appends exactly `user(text)` then the reply, keeps the earlier log, ends not loading; session storage gains at most the `chat_history` key and every other key keeps its value |
| ChatWidget.SendEnabledIffAccepted | frontend/src/components/ChatWidget.tsx:87-91 | the send button is enabled exactly when a submit would be accepted; a disabled text field implies a disabled button |
| ChatWidget.PendingRejectsSubmit | frontend/src/components/ChatWidget.tsx:27-34 | while a call is outstanding both controls are disabled and a further submit is a no-op |
| ChatWidget.BlankSubmitIsNoOp | frontend/src/components/ChatWidget.tsx:27 | submitting whitespace-only text leaves the input, the log and the flag unchanged |
| ChatWidget.AsWrittenAlwaysFails | frontend/src/components/ChatWidget.tsx:36-43 | with the import as written, every accepted submit ends with the system connection-error message (see Findings) |
| ChatWidget.CorrectedDeliversAnswer | frontend/src/components/ChatWidget.tsx:38-41 | with the import naming the exported client, the service's answer is the last message |
| Backend.FormatDocs | backend/main.py:60-61 | no documents join to the empty string; otherwise the length is the sum of the texts' lengths plus two per gap between consecutive texts |
| Backend.FormatSingleDoc | backend/main.py:60-61 | one document joins to its own text |
| Backend.FormatDocsText | backend/main.py:60-61 | each document's text appears at its offset, in input order, and the last one ends the string |
| Backend.FormatDocsSeparator | backend/main.py:60-61 | exactly `"\n\n"` separates each text from the next, which starts right after it |
| Backend.ChatEndpoint | backend/main.py:64-79 | `/chat` succeeds exactly when retrieval (k = 3) and generation both succeed; the body is the generated answer with source `"RAG-CV"`; otherwise HTTP 500 whose detail is the raised error's text |
| Backend.AnalyzeEndpoint | backend/main.py:131-146 | `/analyze` succeeds exactly when the k = 4 search and the analysis chain both succeed and returns the chain's result unchanged; otherwise HTTP 500 with the fixed detail `"Error analizando la oferta"` |
| Backend.ChatErrorsDistinguishable | backend/main.py:77-79 | two chat failures with different error texts give different responses |
| Backend.AnalyzeErrorsIndistinguishable | backend/main.py:144-146 | any two analysis failures give the same response, whichever stage raised and whatever it raised |

## Left out

- The network client (`frontend/src/services/chatService.ts`) and HTTP transport. The agent call is the `AgentOutcome` parameter. The client also posts to `/ask`, a route the backend does not define; that too only affects the outcome.
- React runtime behaviour: state batching, stale closures over `isLoading`, interleaving of several outstanding submits. `handleSubmit` is two atomic steps joined at the `await`. The only scheduling modelled is the double run of mount effects in `StrictModeMount`.
- ChatContext.ParseLog accepts only the text `JSON.stringify` writes for a log: no insignificant whitespace, keys `role` then `content`, string values. Other JSON that `JSON.parse` accepts (for example `null`) counts as a parse failure; the source would store such a value as its messages.
- Json.ParseHex4 refuses `\u` escapes of surrogate halves, so surrogate pairs written as escapes are not decoded. `JSON.stringify` never writes such escapes for the code points a Dafny `char` can hold.
- ChatContext.Restore: the exception `JSON.parse` raises is the constant `"SyntaxError"`; the engine's actual message is not modelled.
- ChatWidget.CompleteSubmit: a reply without an `answer` field, which the source would append as `undefined`, is not modelled. The answer is always a string.
- ChatWidget.CallImported assumes how the bundled code behaves when it calls a name the chat service does not export: the binding is undefined, the call raises a TypeError inside the `try`, and the `catch` shows the connection error. The source promises none of this, so `CallImported` is a plain definition with no contract. A production build might instead stop at its type check; either way no answer is delivered.
- ChatWidget.IsWhitespace follows the Unicode 15 list of space separators. Other Unicode versions may differ.
- LangChain, model and store setup (embeddings, Chroma, the chat model, prompt templates, `JsonOutputParser`): these are the `search`, `generate` and `analyze` parameters. The prompt text is not modelled.
- The 0–100 range of `match_percentage`: it is only a field description and nothing enforces it. Request validation of `question` and `text` by pydantic, and CORS, are also left out.
- The `print` logging in both endpoints' error paths.
- `backend/ingest.py` (document loading, chunking, embedding, persistence), `frontend/src/components/Navbar.tsx`, layouts, build configuration and test setup are not part of this model.
- Rendering in the widget (markdown, auto-scroll, styles, empty-state and "Pensando..." texts).
- Offer detection, link detection, analyzer input validation and the bracketed marker tokens have no code in the modelled files, so they are not part of this model.

## Findings

| source | as written | input that shows it | evidently intended | confidence | as-written member | corrected member |
|---|---|---|---|---|---|---|
| frontend/src/components/ChatWidget.tsx:4 | imports `sendMessageToAgent`, but the chat service exports only `sendMessage` (frontend/src/services/chatService.ts:5); the binding is undefined, so the call at line 38 raises inside the `try` | any accepted submit, e.g. input `"Hola"` while the service would answer `"Hola"` | the service's answer is appended as an `assistant` message | not executed; the name mismatch is certain, undefined-binding semantics of the bundler assumed | ChatWidget.AsWrittenAlwaysFails | ChatWidget.CorrectedDeliversAnswer |
| frontend/src/context/ChatContext.tsx:27-34 | the saved log is restored in an effect. With `reactStrictMode: true` (frontend/next.config.ts:28), development runs both mount effects twice before the restored state applies, so the second restore reads the `[]` the first save wrote | a session holding one message, reloaded in development | a reload within the session keeps the history | not executed; medium (depends on React's development effect order) | ChatContext.StrictModeMountLosesHistory | ChatContext.LazyMountReproduces |

=== FILE: backend.dfy ===
/**
  The backend's response shaping: `format_docs`, which joins retrieved document
  contents into the prompt context, and the `/chat` and `/analyze` endpoints, which
  turn the outcome of a retrieval-augmented chain into a JSON body or an HTTP 500.
  The vector store search and the prompt-plus-model stages are parameters: each
  either returns a value or raises an exception, whose `str()` is kept as text.
 */
module Backend {
  import opened Wrappers

  /** A retrieved document; only its text matters here. */
  datatype Doc = Doc(pageContent: string)

  /** A raised Python exception, by its string form `str(e)`. */
  datatype PyError = PyError(text: string)

  /** What an endpoint produces: a JSON body, or an HTTPException. */
  datatype Response<T> = Ok(body: T) | HttpError(status: nat, detail: string)

  /** The `/chat` body: {"answer": ..., "source": ...}. */
  datatype ChatReply = ChatReply(answer: string, source: string)

  const Separator: string := "\n\n"
  const ChatSource: string := "RAG-CV"
  const AnalyzeErrorDetail: string := "Error analizando la oferta"
  const InternalServerError: nat := 500

  /** Documents the chat retriever returns per question. */
  const RetrieverK: nat := 3
  /** Documents `/analyze` retrieves per job offer. */
  const AnalyzeK: nat := 4

  // ---------------------------------------------------------------------------
  // format_docs
  // ---------------------------------------------------------------------------

  function TotalLength(docs: seq<Doc>): nat {
    if |docs| == 0 then 0 else |docs[0].pageContent| + TotalLength(docs[1..])
  }

  /** format_docs: the documents' texts in order, with a blank line (two line feeds)
      between consecutive ones. */
  function FormatDocs(docs: seq<Doc>): (r: string)
    ensures |docs| == 0 ==> r == ""
    ensures |docs| > 0 ==> |r| == TotalLength(docs) + |Separator| * (|docs| - 1)
  {
    if |docs| == 0 then ""
    else if |docs| == 1 then docs[0].pageContent
    else docs[0].pageContent + Separator + FormatDocs(docs[1..])
  }

  /** Where the i-th document's text starts in the joined string: the lengths of the
      texts before it, plus one separator after each of them. */
  function Offset(docs: seq<Doc>, i: nat): nat
    requires i <= |docs|
  {
    if i == 0 then 0 else |docs[0].pageContent| + |Separator| + Offset(docs[1..], i - 1)
  }

  /** A single document is joined to its own text. */
  lemma FormatSingleDoc(d: Doc)
    ensures FormatDocs([d]) == d.pageContent
  {
  }

  lemma ConcatSliceShift(a: string, b: string, k: nat, len: nat)
    requires k + len <= |b|
    ensures (a + b)[|a| + k..|a| + k + len] == b[k..k + len]
  {
  }

  /** Joining at least two documents puts the first text, one separator, then the
      join of the rest. */
  lemma FormatDocsUnfold(docs: seq<Doc>)
    requires |docs| >= 2
    ensures FormatDocs(docs) == docs[0].pageContent + (Separator + FormatDocs(docs[1..]))
  {
  }

  /** If each text of the later documents sits at its offset in their join, it sits
      at the shifted offset in the whole join. */
  lemma FormatDocsTextStep(docs: seq<Doc>, i: nat)
    requires |docs| >= 2 && 0 < i < |docs|
    requires var rest := FormatDocs(docs[1..]);
      var o := Offset(docs[1..], i - 1);
      && o + |docs[i].pageContent| <= |rest|
      && rest[o..o + |docs[i].pageContent|] == docs[i].pageContent
    ensures var r := FormatDocs(docs);
      var o := Offset(docs, i);
      && o + |docs[i].pageContent| <= |r|
      && r[o..o + |docs[i].pageContent|] == docs[i].pageContent
  {
    FormatDocsUnfold(docs);
    var d0 := docs[0].pageContent;
    var rest := FormatDocs(docs[1..]);
    var o' := Offset(docs[1..], i - 1);
    var n := |docs[i].pageContent|;
    assert Offset(docs, i) == |d0| + |Separator| + o';
    ConcatSliceShift(Separator, rest, o', n);
    ConcatSliceShift(d0, Separator + rest, |Separator| + o', n);
  }

  /** Every document's text appears, in input order, at its offset; the last one ends
      the string. */
  lemma {:induction false} FormatDocsText(docs: seq<Doc>, i: nat)
    requires i < |docs|
    ensures var r := FormatDocs(docs);
      var o := Offset(docs, i);
      var n := |docs[i].pageContent|;
      && o + n <= |r|
      && r[o..o + n] == docs[i].pageContent
      && (i + 1 == |docs| ==> o + n == |r|)
  {
    if |docs| >= 2 {
      if i == 0 {
        FormatDocsUnfold(docs);
      } else {
        FormatDocsText(docs[1..], i - 1);
        assert docs[1..][i - 1] == docs[i];
        FormatDocsTextStep(docs, i);
        assert Offset(docs, i) == |docs[0].pageContent| + |Separator| + Offset(docs[1..], i - 1);
      }
    }
  }

  /** Exactly one separator follows each text but the last, and the next text starts
      right after it. */
  lemma {:induction false} FormatDocsSeparator(docs: seq<Doc>, i: nat)
    requires i + 1 < |docs|
    ensures var r := FormatDocs(docs);
      var e := Offset(docs, i) + |docs[i].pageContent|;
      && e + |Separator| <= |r|
      && r[e..e + |Separator|] == Separator
      && Offset(docs, i + 1) == e + |Separator|
  {
    FormatDocsUnfold(docs);
    var d0 := docs[0].pageContent;
    var tail := Separator + FormatDocs(docs[1..]);
    if i == 0 {
      ConcatSliceShift(d0, tail, 0, |Separator|);
      assert tail[0..|Separator|] == Separator;
      assert Offset(docs[1..], 0) == 0;
      assert Offset(docs, 1) == |d0| + |Separator|;
    } else {
      FormatDocsSeparator(docs[1..], i - 1);
      assert docs[1..][i - 1] == docs[i];
      assert Offset(docs, i) == |d0| + |Separator| + Offset(docs[1..], i - 1);
      assert Offset(docs, i + 1) == |d0| + |Separator| + Offset(docs[1..], i);
      var e' := Offset(docs[1..], i - 1) + |docs[i].pageContent|;
      ConcatSliceShift(Separator, FormatDocs(docs[1..]), e', |Separator|);
      ConcatSliceShift(d0, tail, |Separator| + e', |Separator|);
    }
  }

  // ---------------------------------------------------------------------------
  // The endpoints
  // ---------------------------------------------------------------------------

  /** qa_chain.invoke(question): retrieve the question's documents, join them into
      the context, and run prompt, model and string parser over (context, question). */
  function ChatChain(question: string,
                     search: (string, nat) -> Result<seq<Doc>, PyError>,
                     generate: (string, string) -> Result<string, PyError>): Result<string, PyError>
  {
    var docs :- search(question, RetrieverK);
    generate(FormatDocs(docs), question)
  }

  /** POST /chat: the chain's answer tagged with the constant source, or a 500 whose
      detail is the string form of whatever the chain raised. */
  function ChatEndpoint(question: string,
                        search: (string, nat) -> Result<seq<Doc>, PyError>,
                        generate: (string, string) -> Result<string, PyError>): (r: Response<ChatReply>)
    ensures r.Ok? <==> (search(question, RetrieverK).Success?
                        && generate(FormatDocs(search(question, RetrieverK).value), question).Success?)
    ensures r.Ok? ==> r.body.source == ChatSource
    ensures r.Ok? ==> generate(FormatDocs(search(question, RetrieverK).value), question) == Success(r.body.answer)
    ensures r.HttpError? ==> r.status == InternalServerError
    ensures search(question, RetrieverK).Failure? ==> r.HttpError? && r.detail == search(question, RetrieverK).error.text
    ensures (search(question, RetrieverK).Success?
             && generate(FormatDocs(search(question, RetrieverK).value), question).Failure?) ==>
              r.HttpError? && r.detail == generate(FormatDocs(search(question, RetrieverK).value), question).error.text
  {
    match ChatChain(question, search, generate)
    case Success(answer) => Ok(ChatReply(answer, ChatSource))
    case Failure(e) => HttpError(InternalServerError, e.text)
  }

  /** POST /analyze: the offer's four most similar documents are joined into the
      context and the analysis chain's parsed result is returned as it is; any
      exception becomes a 500 with a fixed detail. */
  function AnalyzeEndpoint<T>(text: string,
                              search: (string, nat) -> Result<seq<Doc>, PyError>,
                              analyze: (string, string) -> Result<T, PyError>): (r: Response<T>)
    ensures r.Ok? <==> (search(text, AnalyzeK).Success?
                        && analyze(FormatDocs(search(text, AnalyzeK).value), text).Success?)
    ensures r.Ok? ==> analyze(FormatDocs(search(text, AnalyzeK).value), text) == Success(r.body)
    ensures r.HttpError? ==> r.status == InternalServerError && r.detail == AnalyzeErrorDetail
  {
    var result := (
      var docs :- search(text, AnalyzeK);
      analyze(FormatDocs(docs), text));
    match result
    case Success(v) => Ok(v)
    case Failure(_) => HttpError(InternalServerError, AnalyzeErrorDetail)
  }

  /** Different chat failures are told apart by the client: the detail carries the
      error's text. */
  lemma ChatErrorsDistinguishable(question: string,
                                  search: (string, nat) -> Result<seq<Doc>, PyError>,
                                  generate1: (string, string) -> Result<string, PyError>,
                                  generate2: (string, string) -> Result<string, PyError>,
                                  e1: PyError, e2: PyError)
    requires search(question, RetrieverK).Success?
    requires generate1(FormatDocs(search(question, RetrieverK).value), question) == Failure(e1)
    requires generate2(FormatDocs(search(question, RetrieverK).value), question) == Failure(e2)
    requires e1.text != e2.text
    ensures ChatEndpoint(question, search, generate1) != ChatEndpoint(question, search, generate2)
  {
  }

  /** Analysis failures are not told apart: whichever stage raises, and whatever it
      raises, the response is the same. */
  lemma AnalyzeErrorsIndistinguishable<T>(text: string,
                                          search1: (string, nat) -> Result<seq<Doc>, PyError>,
                                          analyze1: (string, string) -> Result<T, PyError>,
                                          search2: (string, nat) -> Result<seq<Doc>, PyError>,
                                          analyze2: (string, string) -> Result<T, PyError>)
    requires AnalyzeEndpoint(text, search1, analyze1).HttpError?
    requires AnalyzeEndpoint(text, search2, analyze2).HttpError?
    ensures AnalyzeEndpoint(text, search1, analyze1) == AnalyzeEndpoint(text, search2, analyze2)
  {
  }
}

=== FILE: chat_context.dfy ===
/**
  The conversation store shared by every chat surface (`ChatProvider` and `useChat`):
  an append-only log of messages, a busy flag, and the copy of the log that the
  provider keeps in the browser's session storage under the key "chat_history".
  React state updates are modelled as pure functions from one provider state to the
  next; session storage is a map from keys to strings.
 */
module ChatContext {
  import opened Wrappers
  import Json

  /** One entry of the conversation. The role is free text: the widget uses
      "user", "assistant" and "system". */
  datatype Message = Message(role: string, content: string)

  type SessionStorage = map<string, string>

  const HistoryKey: string := "chat_history"

  /** The error reported when ParseLog rejects a non-empty saved value (JSON.parse's
      SyntaxError). */
  const ParseErrorText: string := "SyntaxError"

  /** The error useChat raises outside a provider. */
  const NoProviderText: string := "useChat debe usarse dentro de un ChatProvider"

  // ---------------------------------------------------------------------------
  // The session format: JSON.stringify of an array of {role, content} objects.
  // ---------------------------------------------------------------------------

  const RolePrefix: string := "{\"role\":"
  const ContentPrefix: string := ",\"content\":"

  function SerializeMessage(m: Message): (r: string)
    ensures |r| > 0 && r[0] == '{'
  {
    RolePrefix + Json.Quote(m.role) + ContentPrefix + Json.Quote(m.content) + "}"
  }

  /** The array elements, separated by commas. */
  function SerializeItems(log: seq<Message>): (r: string)
    ensures |log| > 0 ==> |r| > 0 && r[0] == '{'
  {
    if |log| == 0 then ""
    else if |log| == 1 then SerializeMessage(log[0])
    else SerializeMessage(log[0]) + "," + SerializeItems(log[1..])
  }

  /** JSON.stringify(messages). */
  function SerializeLog(log: seq<Message>): string {
    "[" + SerializeItems(log) + "]"
  }

  /** Consumes the literal `lit` at the start of `s`. */
  function Expect(lit: string, s: string): (r: Option<string>)
    ensures r.Some? <==> lit <= s
    ensures r.Some? ==> s == lit + r.value
  {
    if lit <= s then Some(s[|lit|..]) else None
  }

  function ParseMessage(s: string): (r: Option<(Message, string)>)
    ensures r.Some? ==> |r.value.1| < |s|
  {
    var a :- Expect(RolePrefix, s);
    var role :- Json.ParseString(a);
    var b :- Expect(ContentPrefix, role.1);
    var content :- Json.ParseString(b);
    var c :- Expect("}", content.1);
    Some((Message(role.0, content.0), c))
  }

  function ParseItems(s: string): (r: Option<(seq<Message>, string)>)
    ensures r.Some? ==> |r.value.1| < |s|
    decreases |s|
  {
    var first :- ParseMessage(s);
    if |first.1| > 0 && first.1[0] == ',' then
      var more :- ParseItems(first.1[1..]);
      Some(([first.0] + more.0, more.1))
    else
      Some(([first.0], first.1))
  }

  /** JSON.parse of a saved log; None where JSON.parse would raise or the text is
      not an array of {role, content} objects in the layout SerializeLog writes. */
  function ParseLog(s: string): Option<seq<Message>> {
    if s == "[]" then Some([])
    else
      var a :- Expect("[", s);
      var items :- ParseItems(a);
      if items.1 == "]" then Some(items.0) else None
  }

  lemma ExpectLiteral(lit: string, t: string)
    ensures Expect(lit, lit + t) == Some(t)
  {
    assert (lit + t)[|lit|..] == t;
  }

  /** ParseMessage succeeds when each of its five stages does. */
  lemma ParseMessageSteps(s: string, a: string, role: string, b: string, c: string,
                          content: string, d: string, rest: string)
    requires Expect(RolePrefix, s) == Some(a)
    requires Json.ParseString(a) == Some((role, b))
    requires Expect(ContentPrefix, b) == Some(c)
    requires Json.ParseString(c) == Some((content, d))
    requires Expect("}", d) == Some(rest)
    ensures ParseMessage(s) == Some((Message(role, content), rest))
  {
  }

  lemma RightNest6(a: string, b: string, c: string, d: string, e: string, f: string)
    ensures a + b + c + d + e + f == a + (b + (c + (d + (e + f))))
  {
  }

  lemma MessageRoundTrip(m: Message, rest: string)
    ensures ParseMessage(SerializeMessage(m) + rest) == Some((m, rest))
  {
    var qr := Json.Quote(m.role);
    var qc := Json.Quote(m.content);
    var d := "}" + rest;
    var c := qc + d;
    var b := ContentPrefix + c;
    var a := qr + b;
    assert SerializeMessage(m) == RolePrefix + qr + ContentPrefix + qc + "}";
    RightNest6(RolePrefix, qr, ContentPrefix, qc, "}", rest);
    ExpectLiteral(RolePrefix, a);
    Json.QuoteRoundTrip(m.role, b);
    ExpectLiteral(ContentPrefix, c);
    Json.QuoteRoundTrip(m.content, d);
    ExpectLiteral("}", rest);
    ParseMessageSteps(SerializeMessage(m) + rest, a, m.role, b, c, m.content, d, rest);
  }

  /** ParseItems stops after a message that no comma follows. */
  lemma ParseItemsLast(s: string, m: Message, after: string)
    requires ParseMessage(s) == Some((m, after))
    requires after == [] || after[0] != ','
    ensures ParseItems(s) == Some(([m], after))
  {
  }

  /** ParseItems continues after a message that a comma follows. */
  lemma ParseItemsMore(s: string, m: Message, after: string, more: seq<Message>, end: string)
    requires ParseMessage(s) == Some((m, after))
    requires |after| > 0 && after[0] == ','
    requires ParseItems(after[1..]) == Some((more, end))
    ensures ParseItems(s) == Some(([m] + more, end))
  {
  }

  lemma RightNest4(a: string, b: string, c: string, d: string)
    ensures a + b + c + d == a + (b + (c + d))
  {
  }

  lemma SerializeItemsUnfold(log: seq<Message>, rest: string)
    requires |log| >= 2
    ensures SerializeItems(log) + rest == SerializeMessage(log[0]) + ("," + (SerializeItems(log[1..]) + rest))
  {
    var head := SerializeMessage(log[0]);
    var items := SerializeItems(log[1..]);
    assert SerializeItems(log) == head + "," + items;
    RightNest4(head, ",", items, rest);
  }

  lemma ItemsRoundTripOne(m: Message, rest: string)
    requires rest == [] || rest[0] != ','
    ensures ParseItems(SerializeItems([m]) + rest) == Some(([m], rest))
  {
    var head := SerializeMessage(m);
    assert SerializeItems([m]) == head;
    MessageRoundTrip(m, rest);
    ParseItemsLast(head + rest, m, rest);
  }

  /** If the elements after the first read back, so do all of them. */
  lemma ItemsRoundTripCons(log: seq<Message>, rest: string)
    requires |log| >= 2
    requires ParseItems(SerializeItems(log[1..]) + rest) == Some((log[1..], rest))
    ensures ParseItems(SerializeItems(log) + rest) == Some((log, rest))
  {
    var head := SerializeMessage(log[0]);
    var after := "," + (SerializeItems(log[1..]) + rest);
    SerializeItemsUnfold(log, rest);
    MessageRoundTrip(log[0], after);
    assert after[1..] == SerializeItems(log[1..]) + rest;
    ParseItemsMore(head + after, log[0], after, log[1..], rest);
    assert [log[0]] + log[1..] == log;
  }

  lemma {:induction false} ItemsRoundTrip(log: seq<Message>, rest: string)
    requires |log| > 0
    requires rest == [] || rest[0] != ','
    ensures ParseItems(SerializeItems(log) + rest) == Some((log, rest))
  {
    if |log| == 1 {
      ItemsRoundTripOne(log[0], rest);
      assert [log[0]] == log;
    } else {
      ItemsRoundTrip(log[1..], rest);
      ItemsRoundTripCons(log, rest);
    }
  }

  /** What the provider writes to session storage reads back as the same log. */
  lemma LogRoundTrip(log: seq<Message>)
    ensures ParseLog(SerializeLog(log)) == Some(log)
  {
    var s := SerializeLog(log);
    if |log| > 0 {
      assert s[1] == '{';
      assert s != "[]";
      assert s == "[" + (SerializeItems(log) + "]");
      ItemsRoundTrip(log, "]");
    } else {
      assert s == "[]";
    }
  }

  // ---------------------------------------------------------------------------
  // The provider's state and its operations.
  // ---------------------------------------------------------------------------

  datatype Provider = Provider(messages: seq<Message>, isLoading: bool, session: SessionStorage)

  /** The session copy of the log is current. */
  ghost predicate Persisted(p: Provider) {
    HistoryKey in p.session && p.session[HistoryKey] == SerializeLog(p.messages)
  }

  /** The effect that runs after every change of `messages`. */
  function SaveHistory(session: SessionStorage, log: seq<Message>): (r: SessionStorage)
    ensures HistoryKey in r && ParseLog(r[HistoryKey]) == Some(log)
    ensures r.Keys == session.Keys + {HistoryKey}
    ensures forall k :: k in session && k != HistoryKey ==> r[k] == session[k]
  {
    LogRoundTrip(log);
    session[HistoryKey := SerializeLog(log)]
  }

  /** A later save replaces an earlier one. */
  lemma SaveHistoryOverwrites(session: SessionStorage, first: seq<Message>, second: seq<Message>)
    ensures SaveHistory(SaveHistory(session, first), second) == SaveHistory(session, second)
  {
    var a := SaveHistory(SaveHistory(session, first), second);
    var b := SaveHistory(session, second);
    assert a.Keys == b.Keys;
    assert forall k :: k in a ==> a[k] == b[k];
  }

  /** addMessage(role, content). */
  function AddMessage(p: Provider, role: string, content: string): (r: Provider)
    ensures |r.messages| == |p.messages| + 1
    ensures r.messages[..|p.messages|] == p.messages
    ensures r.messages[|p.messages|] == Message(role, content)
    ensures r.isLoading == p.isLoading
    ensures Persisted(r)
    ensures r.session.Keys == p.session.Keys + {HistoryKey}
    ensures forall k :: k in p.session && k != HistoryKey ==> r.session[k] == p.session[k]
  {
    var log := p.messages + [Message(role, content)];
    Provider(log, p.isLoading, SaveHistory(p.session, log))
  }

  /** setIsLoading(loading): the log and session storage are untouched, because the
      save effect depends on `messages` only. */
  function SetIsLoading(p: Provider, loading: bool): (r: Provider)
    ensures r.isLoading == loading
    ensures r.messages == p.messages && r.session == p.session
    ensures Persisted(p) ==> Persisted(r)
  {
    p.(isLoading := loading)
  }

  /** Appends the messages one at a time, in order. */
  function AddAll(p: Provider, ms: seq<Message>): Provider
    decreases |ms|
  {
    if |ms| == 0 then p
    else AddAll(AddMessage(p, ms[0].role, ms[0].content), ms[1..])
  }

  /** Appending N messages and reading the log back gives the old log followed by
      those N messages, in order. */
  lemma {:induction false} AddAllReadsBack(p: Provider, ms: seq<Message>)
    ensures AddAll(p, ms).messages == p.messages + ms
    decreases |ms|
  {
    if |ms| > 0 {
      var m := ms[0];
      var q := AddMessage(p, m.role, m.content);
      AddAllUnfold(p, ms);
      AddMessageAppends(p, m);
      AddAllReadsBack(q, ms[1..]);
      assert ms == [m] + ms[1..];
      assert (p.messages + [m]) + ms[1..] == p.messages + ([m] + ms[1..]);
    }
  }

  lemma AddMessageAppends(p: Provider, m: Message)
    ensures AddMessage(p, m.role, m.content).messages == p.messages + [m]
  {
  }

  lemma AddAllUnfold(p: Provider, ms: seq<Message>)
    requires |ms| > 0
    ensures AddAll(p, ms) == AddAll(AddMessage(p, ms[0].role, ms[0].content), ms[1..])
  {
  }

  /** Appending leaves the busy flag alone and the session copy current. */
  lemma {:induction false} AddAllKeepsFlagAndStorage(p: Provider, ms: seq<Message>)
    ensures AddAll(p, ms).isLoading == p.isLoading
    ensures Persisted(p) || |ms| > 0 ==> Persisted(AddAll(p, ms))
    decreases |ms|
  {
    if |ms| > 0 {
      AddAllKeepsFlagAndStorage(AddMessage(p, ms[0].role, ms[0].content), ms[1..]);
    }
  }

  // ---------------------------------------------------------------------------
  // Mounting: the restore effect, then the save effect.
  // ---------------------------------------------------------------------------

  /** sessionStorage.getItem(key): null when the key is absent. */
  function GetItem(session: SessionStorage, key: string): (r: Option<string>)
    ensures r.Some? <==> key in session
    ensures r.Some? ==> r.value == session[key]
  {
    if key in session then Some(session[key]) else None
  }

  /** The restore effect: a truthy (non-empty) saved value replaces the log with its
      parse; null and "" leave the initial empty log; a value JSON.parse rejects raises. */
  function Restore(saved: Option<string>): (r: Result<seq<Message>, string>)
    ensures saved == None || saved == Some("") ==> r == Success([])
    ensures saved.Some? && saved.value != "" ==>
              (r.Success? <==> ParseLog(saved.value).Some?) &&
              (r.Success? ==> Some(r.value) == ParseLog(saved.value)) &&
              (r.Failure? ==> r.error == ParseErrorText)
  {
    match saved
    case None => Success([])
    case Some(text) =>
      if text == "" then Success([])
      else
        match ParseLog(text)
        case Some(log) => Success(log)
        case None => Failure(ParseErrorText)
  }

  /** The provider after mounting over `session`: the log starts empty and `isLoading`
      false, the restore effect runs, and the save effect writes the resulting log (its first
      run, with the initial empty log, is overwritten by the run that follows the
      restored state). */
  function Mount(session: SessionStorage): (r: Result<Provider, string>)
    ensures r.Success? ==> !r.value.isLoading && Persisted(r.value)
    ensures r.Success? ==> r.value.session.Keys == session.Keys + {HistoryKey}
    ensures r.Success? ==> forall k :: k in session && k != HistoryKey ==> r.value.session[k] == session[k]
    ensures (HistoryKey !in session || session[HistoryKey] == "") ==> r.Success? && r.value.messages == []
    ensures HistoryKey in session && session[HistoryKey] != "" ==>
              && (r.Success? <==> ParseLog(session[HistoryKey]).Some?)
              && (r.Success? ==> ParseLog(session[HistoryKey]) == Some(r.value.messages))
              && (r.Failure? ==> r.error == ParseErrorText)
  {
    var log :- Restore(GetItem(session, HistoryKey));
    Success(Provider(log, false, SaveHistory(session, log)))
  }

  /** A page reload within the session gives back the same log; only the busy flag,
      which is not saved, returns to false. */
  lemma ReloadReproduces(p: Provider)
    requires Persisted(p)
    ensures Mount(p.session) == Success(Provider(p.messages, false, p.session))
  {
    LogRoundTrip(p.messages);
    assert SerializeLog(p.messages) != "";
    assert p.session[HistoryKey := SerializeLog(p.messages)] == p.session;
  }

  /** Mounting a second time over what the first mount left changes nothing. */
  lemma MountIdempotent(session: SessionStorage)
    requires Mount(session).Success?
    ensures Mount(Mount(session).value.session) == Mount(session)
  {
    ReloadReproduces(Mount(session).value);
  }

  // ---------------------------------------------------------------------------
  // The mount effects as React's development StrictMode runs them: each effect is
  // run, then run again, before the state updates they scheduled are applied.
  // ---------------------------------------------------------------------------

  /** One run of both mount effects while the rendered log is `rendered`: the
      update the restore effect schedules (if any), and the storage after the save. */
  function RunMountEffects(session: SessionStorage, rendered: seq<Message>): (Option<Result<seq<Message>, string>>, SessionStorage) {
    var saved := GetItem(session, HistoryKey);
    var update := if saved.Some? && saved.value != "" then Some(Restore(saved)) else None;
    (update, SaveHistory(session, rendered))
  }

  /** Applies the scheduled updates in order: the last one wins; a raised parse error
      aborts the mount. */
  function ApplyUpdates(log: seq<Message>, updates: seq<Option<Result<seq<Message>, string>>>): Result<seq<Message>, string>
    decreases |updates|
  {
    if |updates| == 0 then Success(log)
    else
      match updates[0]
      case None => ApplyUpdates(log, updates[1..])
      case Some(Failure(e)) => Failure(e)
      case Some(Success(next)) => ApplyUpdates(next, updates[1..])
  }

  /** Mounting as written, under development StrictMode. */
  function StrictModeMount(session: SessionStorage): Result<Provider, string> {
    var first := RunMountEffects(session, []);
    var second := RunMountEffects(first.1, []);
    var log :- ApplyUpdates([], [first.0, second.0]);
    Success(Provider(log, false, SaveHistory(second.1, log)))
  }

  /** Over a saved log, the restore effect schedules exactly that log. */
  lemma RunMountEffectsOverSavedLog(session: SessionStorage, log: seq<Message>, rendered: seq<Message>)
    requires HistoryKey in session && session[HistoryKey] == SerializeLog(log)
    ensures RunMountEffects(session, rendered) == (Some(Success(log)), SaveHistory(session, rendered))
  {
    LogRoundTrip(log);
    assert SerializeLog(log) != "";
  }

  /** As written, a development-mode reload loses a non-empty history: the second
      restore reads the "[]" that the first save wrote. */
  lemma StrictModeMountLosesHistory(p: Provider)
    requires Persisted(p) && p.messages != []
    ensures StrictModeMount(p.session) == Success(Provider([], false, SaveHistory(p.session, [])))
  {
    RunMountEffectsOverSavedLog(p.session, p.messages, []);
    var s1 := SaveHistory(p.session, []);
    RunMountEffectsOverSavedLog(s1, [], []);
    var s2 := SaveHistory(s1, []);
    var updates: seq<Option<Result<seq<Message>, string>>> := [Some(Success(p.messages)), Some(Success([]))];
    assert updates[1..] == [Some(Success([]))];
    assert updates[1..][1..] == [];
    assert ApplyUpdates([], updates[1..][1..]) == Success([]);
    assert ApplyUpdates(p.messages, updates[1..]) == Success([]);
    assert ApplyUpdates([], updates) == Success([]);
    SaveHistoryOverwrites(p.session, [], []);
    SaveHistoryOverwrites(s1, [], []);
    assert SaveHistory(s2, []) == SaveHistory(p.session, []);
  }

  /** The corrected mount: the saved log is restored once, before the first save.
      The save effect then never runs before the read, and running it twice, as
      StrictMode does, writes the same text twice. How the restore is placed in the
      component (and kept consistent with the server render) is not modelled. */
  function LazyMount(session: SessionStorage): (r: Result<Provider, string>)
    ensures r == Mount(session)
  {
    var log :- Restore(GetItem(session, HistoryKey));
    var s1 := SaveHistory(session, log);
    SaveHistoryOverwrites(session, log, log);
    Success(Provider(log, false, SaveHistory(s1, log)))
  }

  /** With the corrected mount, a development-mode reload gives back the log too. */
  lemma LazyMountReproduces(p: Provider)
    requires Persisted(p)
    ensures LazyMount(p.session) == Success(Provider(p.messages, false, p.session))
  {
    ReloadReproduces(p);
  }

  // ---------------------------------------------------------------------------
  // The hook.
  // ---------------------------------------------------------------------------

  /** useChat(): the provider's value, or an error when no provider encloses the caller
      (the context's default value is undefined). */
  function UseChat(context: Option<Provider>): (r: Result<Provider, string>)
    ensures r.Success? <==> context.Some?
    ensures r.Success? ==> r.value == context.value
    ensures r.Failure? ==> r.error == NoProviderText
  {
    match context
    case None => Failure(NoProviderText)
    case Some(p) => Success(p)
  }
}

=== FILE: chat_widget.dfy ===
/**
  The chat widget's form: the text field's value, the submit transition over
  (input, messages, isLoading), and the conditions that disable the field and the
  send button. The call to the agent is not modelled; its outcome is a parameter.
 */
module ChatWidget {
  import opened Wrappers
  import opened ChatContext

  // ---------------------------------------------------------------------------
  // String.prototype.trim
  // ---------------------------------------------------------------------------

  /** The code points trim() removes: ECMAScript WhiteSpace (tab, vertical tab, form
      feed, the byte order mark and the space separators of Unicode category Zs) and
      LineTerminator (line feed, carriage return, line and paragraph separators). */
  predicate IsWhitespace(c: char) {
    var n := c as int;
    n == 0x09 || n == 0x0B || n == 0x0C || n == 0xFEFF
    || n == 0x20 || n == 0xA0 || n == 0x1680 || 0x2000 <= n <= 0x200A
    || n == 0x202F || n == 0x205F || n == 0x3000
    || n == 0x0A || n == 0x0D || n == 0x2028 || n == 0x2029
  }

  function TrimStart(s: string): (r: string)
    ensures |r| <= |s| && r == s[|s| - |r|..]
    ensures forall i :: 0 <= i < |s| - |r| ==> IsWhitespace(s[i])
    ensures |r| > 0 ==> !IsWhitespace(r[0])
    decreases |s|
  {
    if |s| > 0 && IsWhitespace(s[0]) then TrimStart(s[1..]) else s
  }

  function TrimEnd(s: string): (r: string)
    ensures |r| <= |s| && r == s[..|r|]
    ensures forall i :: |r| <= i < |s| ==> IsWhitespace(s[i])
    ensures |r| > 0 ==> !IsWhitespace(r[|r| - 1])
    decreases |s|
  {
    if |s| > 0 && IsWhitespace(s[|s| - 1]) then TrimEnd(s[..|s| - 1]) else s
  }

  /** input.trim() */
  function Trim(s: string): string {
    TrimEnd(TrimStart(s))
  }

  /** trim() leaves the text between the first and the last non-whitespace code
      points: a slice of the input that neither starts nor ends with whitespace. */
  lemma TrimSpec(s: string)
    ensures var k := |s| - |TrimStart(s)|;
      var r := Trim(s);
      && k + |r| <= |s|
      && r == s[k..k + |r|]
      && (|r| > 0 ==> !IsWhitespace(r[0]) && !IsWhitespace(r[|r| - 1]))
      && (forall i :: 0 <= i < k ==> IsWhitespace(s[i]))
      && (forall i :: k + |r| <= i < |s| ==> IsWhitespace(s[i]))
  {
    TrimIsSlice(s);
    TrimEnds(s);
    TrimDropsWhitespaceAfter(s);
  }

  /** What trimming the end removes is whitespace of the input. */
  lemma TrimDropsWhitespaceAfter(s: string)
    ensures var k := |s| - |TrimStart(s)|;
      var r := Trim(s);
      forall i :: k + |r| <= i < |s| ==> IsWhitespace(s[i])
  {
    var t := TrimStart(s);
    TailShift(s, |s| - |t|, |TrimEnd(t)|, IsWhitespace);
  }

  /** A property of every element of a suffix's tail holds at the shifted positions
      of the whole sequence. */
  lemma TailShift(s: string, k: nat, m: nat, P: char -> bool)
    requires k + m <= |s|
    requires forall i :: m <= i < |s| - k ==> P(s[k..][i])
    ensures forall i :: k + m <= i < |s| ==> P(s[i])
  {
    forall i | k + m <= i < |s|
      ensures P(s[i])
    {
      assert s[k..][i - k] == s[i];
    }
  }

  lemma TrimIsSlice(s: string)
    ensures var k := |s| - |TrimStart(s)|;
      var r := Trim(s);
      k + |r| <= |s| && r == s[k..k + |r|]
  {
    var t := TrimStart(s);
    var r := TrimEnd(t);
    var k := |s| - |t|;
    SuffixPrefixSlice(s, k, |r|);
  }

  lemma TrimEnds(s: string)
    ensures var r := Trim(s);
      |r| > 0 ==> !IsWhitespace(r[0]) && !IsWhitespace(r[|r| - 1])
  {
    var t := TrimStart(s);
    var r := TrimEnd(t);
    if |r| > 0 {
      assert r[0] == t[0];
    }
  }

  lemma SuffixPrefixSlice(s: string, k: nat, m: nat)
    requires k + m <= |s|
    ensures s[k..][..m] == s[k..k + m]
  {
  }

  lemma {:induction false} TrimStartAllWhitespace(s: string)
    requires forall i :: 0 <= i < |s| ==> IsWhitespace(s[i])
    ensures TrimStart(s) == []
    decreases |s|
  {
    if |s| > 0 {
      TrimStartAllWhitespace(s[1..]);
    }
  }

  /** `!input.trim()`: the trimmed text is the empty string. */
  predicate Blank(s: string) {
    Trim(s) == ""
  }

  /** trim() gives the empty string exactly when every code point is whitespace. */
  lemma BlankIffAllWhitespace(s: string)
    ensures Blank(s) <==> forall i :: 0 <= i < |s| ==> IsWhitespace(s[i])
  {
    if forall i :: 0 <= i < |s| ==> IsWhitespace(s[i]) {
      AllWhitespaceIsBlank(s);
    } else {
      var j :| 0 <= j < |s| && !IsWhitespace(s[j]);
      NonWhitespaceIsNotBlank(s, j);
    }
  }

  lemma AllWhitespaceIsBlank(s: string)
    requires forall i :: 0 <= i < |s| ==> IsWhitespace(s[i])
    ensures Blank(s)
  {
    TrimStartAllWhitespace(s);
    assert TrimEnd([]) == [];
  }

  lemma NonWhitespaceIsNotBlank(s: string, j: nat)
    requires j < |s| && !IsWhitespace(s[j])
    ensures !Blank(s)
  {
    TrimStartKeeps(s, j);
    var t := TrimStart(s);
    TrimEndKeeps(t, j - (|s| - |t|));
  }

  /** A non-whitespace code point survives trimming the start, shifted left by the
      number of code points removed. */
  lemma TrimStartKeeps(s: string, j: nat)
    requires j < |s| && !IsWhitespace(s[j])
    ensures var t := TrimStart(s);
      var k := |s| - |t|;
      k <= j && t[j - k] == s[j]
  {
  }

  /** A non-whitespace code point survives trimming the end. */
  lemma TrimEndKeeps(t: string, i: nat)
    requires i < |t| && !IsWhitespace(t[i])
    ensures i < |TrimEnd(t)|
  {
  }

  // ---------------------------------------------------------------------------
  // The submit transition
  // ---------------------------------------------------------------------------

  const UserRole: string := "user"
  const AssistantRole: string := "assistant"
  const SystemRole: string := "system"

  /** The system message appended when the agent call raises. */
  const ConnectionErrorText: string := "⚠️ Error de conexión. Inténtalo más tarde."

  /** What the awaited agent call settles to: an answer, or a raised error. */
  datatype AgentOutcome = Answered(answer: string) | ConnectionFailed

  datatype Widget = Widget(input: string, chat: Provider)

  /** The guard of handleSubmit: some non-whitespace text, and no call outstanding. */
  predicate Accepts(w: Widget) {
    !Blank(w.input) && !w.chat.isLoading
  }

  /** The text field is disabled while a call is outstanding. */
  predicate InputDisabled(w: Widget) {
    w.chat.isLoading
  }

  /** The send button is disabled while a call is outstanding or the text is blank. */
  predicate SendDisabled(w: Widget) {
    w.chat.isLoading || Blank(w.input)
  }

  /** The synchronous part of handleSubmit, up to the await: None when the guard
      returns early; otherwise the field is cleared, the untrimmed text is appended
      as a user message and the busy flag is set. */
  function BeginSubmit(w: Widget): (r: Option<Widget>)
    ensures r.Some? <==> Accepts(w)
    ensures r.Some? ==>
              && r.value.input == ""
              && r.value.chat.isLoading
              && r.value.chat.messages == w.chat.messages + [Message(UserRole, w.input)]
              && Persisted(r.value.chat)
    ensures r.Some? ==> r.value.chat.session.Keys == w.chat.session.Keys + {HistoryKey}
    ensures r.Some? ==> forall k :: k in w.chat.session && k != HistoryKey ==>
                          r.value.chat.session[k] == w.chat.session[k]
  {
    if Blank(w.input) || w.chat.isLoading then None
    else
      var chat := SetIsLoading(AddMessage(w.chat, UserRole, w.input), true);
      Some(Widget("", chat))
  }

  /** The part of handleSubmit after the await: the reply (or the fixed error
      message) is appended and, in the finally block, the busy flag is cleared. */
  function CompleteSubmit(w: Widget, outcome: AgentOutcome): (r: Widget)
    ensures r.input == w.input
    ensures !r.chat.isLoading
    ensures Persisted(r.chat)
    ensures |r.chat.messages| == |w.chat.messages| + 1
    ensures r.chat.messages[..|w.chat.messages|] == w.chat.messages
    ensures outcome.Answered? ==> r.chat.messages[|w.chat.messages|] == Message(AssistantRole, outcome.answer)
    ensures outcome.ConnectionFailed? ==> r.chat.messages[|w.chat.messages|] == Message(SystemRole, ConnectionErrorText)
    ensures r.chat.session.Keys == w.chat.session.Keys + {HistoryKey}
    ensures forall k :: k in w.chat.session && k != HistoryKey ==> r.chat.session[k] == w.chat.session[k]
  {
    var chat := match outcome
      case Answered(answer) => AddMessage(w.chat, AssistantRole, answer)
      case ConnectionFailed => AddMessage(w.chat, SystemRole, ConnectionErrorText);
    Widget(w.input, SetIsLoading(chat, false))
  }

  /** handleSubmit as one transition, given how the agent call settles. */
  function Submit(w: Widget, outcome: AgentOutcome): (r: Widget)
    ensures !Accepts(w) ==> r == w
    ensures Accepts(w) ==>
              var n := |w.chat.messages|;
              && r.input == ""
              && !r.chat.isLoading
              && Persisted(r.chat)
              && |r.chat.messages| == n + 2
              && r.chat.messages[..n] == w.chat.messages
              && r.chat.messages[n] == Message(UserRole, w.input)
              && (outcome.Answered? ==> r.chat.messages[n + 1] == Message(AssistantRole, outcome.answer))
              && (outcome.ConnectionFailed? ==> r.chat.messages[n + 1] == Message(SystemRole, ConnectionErrorText))
              && r.chat.session.Keys == w.chat.session.Keys + {HistoryKey}
              && (forall k :: k in w.chat.session && k != HistoryKey ==> r.chat.session[k] == w.chat.session[k])
  {
    match BeginSubmit(w)
    case None => w
    case Some(pending) => CompleteSubmit(pending, outcome)
  }

  /** The send button is enabled exactly when a submit would be accepted, and a
      disabled text field implies a disabled send button. */
  lemma SendEnabledIffAccepted(w: Widget)
    ensures !SendDisabled(w) <==> BeginSubmit(w).Some?
    ensures InputDisabled(w) ==> SendDisabled(w)
  {
  }

  /** While the call is outstanding both controls are disabled and a further submit
      is a no-op, whatever the agent answers. */
  lemma PendingRejectsSubmit(w: Widget, outcome: AgentOutcome)
    requires BeginSubmit(w).Some?
    ensures var pending := BeginSubmit(w).value;
      && InputDisabled(pending)
      && SendDisabled(pending)
      && BeginSubmit(pending).None?
      && Submit(pending, outcome) == pending
  {
  }

  /** Accepting a submit does not depend on the busy flag alone: a blank text is
      rejected even when idle, and the rejection leaves the log, the flag and the
      text exactly as they were. */
  lemma BlankSubmitIsNoOp(w: Widget, outcome: AgentOutcome)
    requires forall i :: 0 <= i < |w.input| ==> IsWhitespace(w.input[i])
    ensures Submit(w, outcome) == w
  {
    BlankIffAllWhitespace(w.input);
  }

  // ---------------------------------------------------------------------------
  // The agent binding as written: the widget imports `sendMessageToAgent`, while
  // the chat service exports only `sendMessage`.
  // ---------------------------------------------------------------------------

  const ChatServiceExports: set<string> := {"sendMessage"}
  const WidgetImportName: string := "sendMessageToAgent"
  const CorrectedImportName: string := "sendMessage"

  /** The outcome handleSubmit sees when it calls the imported name: a name the
      service does not export is undefined, calling it raises a TypeError inside the
      try block, and the catch turns that into the connection error. */
  function CallImported(exports: set<string>, name: string, service: AgentOutcome): AgentOutcome {
    if name in exports then service else ConnectionFailed
  }

  /** handleSubmit as written, whatever the chat service would have answered. */
  function SubmitAsWritten(w: Widget, service: AgentOutcome): Widget {
    Submit(w, CallImported(ChatServiceExports, WidgetImportName, service))
  }

  /** As written, every accepted submit ends with the connection error, even when the
      service would have answered. */
  lemma AsWrittenAlwaysFails(w: Widget, service: AgentOutcome)
    requires Accepts(w)
    ensures var r := SubmitAsWritten(w, service);
      r.chat.messages[|r.chat.messages| - 1] == Message(SystemRole, ConnectionErrorText)
  {
  }

  /** handleSubmit with the import corrected to the exported name. */
  function SubmitCorrected(w: Widget, service: AgentOutcome): Widget {
    Submit(w, CallImported(ChatServiceExports, CorrectedImportName, service))
  }

  /** With the corrected import, an answer from the service reaches the log. */
  lemma CorrectedDeliversAnswer(w: Widget, answer: string)
    requires Accepts(w)
    ensures var r := SubmitCorrected(w, Answered(answer));
      r.chat.messages[|r.chat.messages| - 1] == Message(AssistantRole, answer)
      && r == Submit(w, Answered(answer))
  {
  }
}

=== FILE: json.dfy ===
/**
  JSON string literals, as the browser's JSON.stringify writes them and JSON.parse
  reads them (section 25.5 of ECMA-262, QuoteJSONString and the JSON string grammar).
  A Dafny `char` is a Unicode scalar value, so lone surrogate halves never occur in
  the text being quoted.
 */
module Json {
  import opened Wrappers

  const LowerHexDigits: string := "0123456789abcdef"

  function HexDigit(n: nat): (c: char)
    requires n < 16
    ensures c in LowerHexDigits
  {
    LowerHexDigits[n]
  }

  /** The value of one hexadecimal digit of a `\u` escape; either case is accepted. */
  function HexValue(c: char): (r: Option<nat>)
    ensures r.Some? ==> r.value < 16
    ensures r.Some? <==> ('0' <= c <= '9' || 'a' <= c <= 'f' || 'A' <= c <= 'F')
  {
    if '0' <= c <= '9' then Some(c as int - '0' as int)
    else if 'a' <= c <= 'f' then Some(c as int - 'a' as int + 10)
    else if 'A' <= c <= 'F' then Some(c as int - 'A' as int + 10)
    else None
  }

  lemma HexValueOfHexDigit(n: nat)
    requires n < 16
    ensures HexValue(HexDigit(n)) == Some(n)
  {
  }

  /** The letter of a single-character escape, for the seven code points that have one. */
  function ShortEscape(c: char): Option<char> {
    if c as int == 0x08 then Some('b')
    else if c as int == 0x09 then Some('t')
    else if c as int == 0x0A then Some('n')
    else if c as int == 0x0C then Some('f')
    else if c as int == 0x0D then Some('r')
    else if c == '"' then Some('"')
    else if c == '\\' then Some('\\')
    else None
  }

  /** `\u` followed by four lower-case hexadecimal digits, for a control character
      (below 0x20, so the first two digits are zeros). */
  function UnicodeEscape(n: nat): (r: string)
    requires n < 0x20
    ensures |r| == 6 && r[0] == '\\' && r[1] == 'u'
  {
    ['\\', 'u', '0', '0', HexDigit(n / 16), HexDigit(n % 16)]
  }

  /** How JSON.stringify writes one code point inside a string literal. */
  function EscapeChar(c: char): (r: string)
    ensures 1 <= |r|
    ensures r[0] == '\\' || (r == [c] && c != '"' && c != '\\' && c as int >= 0x20)
  {
    match ShortEscape(c)
    case Some(e) => ['\\', e]
    case None => if c as int < 0x20 then UnicodeEscape(c as int) else [c]
  }

  function QuoteBody(s: string): string {
    if s == [] then [] else EscapeChar(s[0]) + QuoteBody(s[1..])
  }

  /** JSON.stringify of a string value. */
  function Quote(s: string): (r: string)
    ensures 2 + |s| <= |r|
    ensures r[0] == '"' && r[|r| - 1] == '"'
  {
    QuoteLength(s);
    "\"" + QuoteBody(s) + "\""
  }

  lemma {:induction false} QuoteLength(s: string)
    ensures |s| <= |QuoteBody(s)|
  {
    if s != [] {
      QuoteLength(s[1..]);
    }
  }

  /** The code point a single-character escape letter stands for (`/` included, which
      JSON.parse accepts although JSON.stringify never writes it). */
  function ShortUnescape(e: char): Option<char> {
    if e == '"' then Some('"')
    else if e == '\\' then Some('\\')
    else if e == '/' then Some('/')
    else if e == 'b' then Some(0x08 as char)
    else if e == 'f' then Some(0x0C as char)
    else if e == 'n' then Some(0x0A as char)
    else if e == 'r' then Some(0x0D as char)
    else if e == 't' then Some(0x09 as char)
    else None
  }

  /** Reads the four hexadecimal digits of a `\u` escape; surrogate halves are refused. */
  function ParseHex4(s: string): (r: Option<(char, string)>)
    ensures r.Some? ==> |r.value.1| < |s|
  {
    if |s| < 4 then None
    else
      match (HexValue(s[0]), HexValue(s[1]), HexValue(s[2]), HexValue(s[3]))
      case (Some(a), Some(b), Some(c), Some(d)) =>
        var code := a * 0x1000 + b * 0x100 + c * 16 + d;
        if 0xD800 <= code < 0xE000 then None else Some((code as char, s[4..]))
      case _ => None
  }

  /** Reads the part of an escape sequence after the backslash. */
  function ParseEscape(s: string): (r: Option<(char, string)>)
    ensures r.Some? ==> |r.value.1| < |s|
  {
    if |s| == 0 then None
    else if s[0] == 'u' then ParseHex4(s[1..])
    else
      match ShortUnescape(s[0])
      case Some(c) => Some((c, s[1..]))
      case None => None
  }

  /** Reads string-literal characters up to and including the closing quote;
      yields the decoded text and what follows the quote. */
  function ParseStringBody(s: string): (r: Option<(string, string)>)
    ensures r.Some? ==> |r.value.1| < |s|
    decreases |s|
  {
    if |s| == 0 then None
    else if s[0] == '"' then Some(([], s[1..]))
    else if s[0] == '\\' then
      match ParseEscape(s[1..])
      case None => None
      case Some((c, rest)) =>
        match ParseStringBody(rest)
        case None => None
        case Some((t, after)) => Some(([c] + t, after))
    else if s[0] as int < 0x20 then None
    else
      match ParseStringBody(s[1..])
      case None => None
      case Some((t, after)) => Some(([s[0]] + t, after))
  }

  /** Reads one JSON string literal at the start of `s`. */
  function ParseString(s: string): (r: Option<(string, string)>)
    ensures r.Some? ==> |r.value.1| < |s|
  {
    if |s| > 0 && s[0] == '"' then ParseStringBody(s[1..]) else None
  }

  lemma ShortEscapeRoundTrip(c: char)
    requires ShortEscape(c).Some?
    ensures ShortUnescape(ShortEscape(c).value) == Some(c)
  {
  }

  /** ParseHex4 over four digits whose values are known. */
  lemma ParseHex4Digits(s: string, a: nat, b: nat, c: nat, d: nat)
    requires |s| >= 4
    requires HexValue(s[0]) == Some(a) && HexValue(s[1]) == Some(b)
    requires HexValue(s[2]) == Some(c) && HexValue(s[3]) == Some(d)
    requires a * 0x1000 + b * 0x100 + c * 16 + d < 0xD800
    ensures ParseHex4(s) == Some(((a * 0x1000 + b * 0x100 + c * 16 + d) as char, s[4..]))
  {
  }

  lemma UnicodeEscapeRoundTrip(n: nat, rest: string)
    requires n < 0x20
    ensures ParseHex4(UnicodeEscape(n)[2..] + rest) == Some((n as char, rest))
  {
    var hi, lo := n / 16, n % 16;
    assert hi * 16 + lo == n && hi < 16;
    var e := UnicodeEscape(n)[2..] + rest;
    assert e == ['0', '0', HexDigit(hi), HexDigit(lo)] + rest;
    HexValueOfHexDigit(0);
    HexValueOfHexDigit(hi);
    HexValueOfHexDigit(lo);
    ParseHex4Digits(e, 0, 0, hi, lo);
    assert e[4..] == rest;
  }

  lemma EscapeCharRoundTrip(c: char, rest: string)
    requires EscapeChar(c)[0] == '\\'
    ensures ParseEscape(EscapeChar(c)[1..] + rest) == Some((c, rest))
  {
    var e := EscapeChar(c)[1..] + rest;
    if ShortEscape(c).None? {
      assert c as int < 0x20;
      assert e[0] == 'u';
      assert e[1..] == UnicodeEscape(c as int)[2..] + rest;
      UnicodeEscapeRoundTrip(c as int, rest);
    } else {
      ShortEscapeRoundTrip(c);
      assert e[0] == ShortEscape(c).value;
      assert e[1..] == rest;
    }
  }

  /** One step of ParseStringBody over a literal code point. */
  lemma ParseLiteralStep(input: string, t: string, after: string)
    requires |input| > 0 && input[0] != '"' && input[0] != '\\' && input[0] as int >= 0x20
    requires ParseStringBody(input[1..]) == Some((t, after))
    ensures ParseStringBody(input) == Some(([input[0]] + t, after))
  {
  }

  /** One step of ParseStringBody over an escape sequence. */
  lemma ParseEscapeStep(input: string, c: char, tail: string, t: string, after: string)
    requires |input| > 0 && input[0] == '\\'
    requires ParseEscape(input[1..]) == Some((c, tail))
    requires ParseStringBody(tail) == Some((t, after))
    ensures ParseStringBody(input) == Some(([c] + t, after))
  {
  }

  /** Quoting a non-empty text writes its first code point, then the rest. */
  lemma QuoteBodyUnfold(s: string, rest: string)
    requires s != []
    ensures QuoteBody(s) + "\"" + rest == EscapeChar(s[0]) + (QuoteBody(s[1..]) + "\"" + rest)
  {
    var e, q := EscapeChar(s[0]), QuoteBody(s[1..]);
    assert QuoteBody(s) == e + q;
    RegroupAfterFirst(e, q, "\"", rest);
  }

  lemma RegroupAfterFirst(a: string, b: string, c: string, d: string)
    ensures (a + b) + c + d == a + (b + c + d)
  {
  }

  lemma StepOverEscape(c: char, e: string, tail: string, t: string, after: string)
    requires |e| > 0 && e[0] == '\\'
    requires ParseEscape(e[1..] + tail) == Some((c, tail))
    requires ParseStringBody(tail) == Some((t, after))
    ensures ParseStringBody(e + tail) == Some(([c] + t, after))
  {
    var input := e + tail;
    assert input[1..] == e[1..] + tail;
    ParseEscapeStep(input, c, tail, t, after);
  }

  lemma StepOverLiteral(c: char, tail: string, t: string, after: string)
    requires c != '"' && c != '\\' && c as int >= 0x20
    requires ParseStringBody(tail) == Some((t, after))
    ensures ParseStringBody([c] + tail) == Some(([c] + t, after))
  {
    var input := [c] + tail;
    assert input[1..] == tail;
    ParseLiteralStep(input, t, after);
  }

  /** If the rest of the text reads back, so does the whole. */
  lemma QuoteBodyStep(s: string, rest: string)
    requires s != []
    requires ParseStringBody(QuoteBody(s[1..]) + "\"" + rest) == Some((s[1..], rest))
    ensures ParseStringBody(QuoteBody(s) + "\"" + rest) == Some((s, rest))
  {
    var c := s[0];
    var e := EscapeChar(c);
    var tail := QuoteBody(s[1..]) + "\"" + rest;
    QuoteBodyUnfold(s, rest);
    if e[0] == '\\' {
      EscapeCharRoundTrip(c, tail);
      StepOverEscape(c, e, tail, s[1..], rest);
    } else {
      StepOverLiteral(c, tail, s[1..], rest);
    }
    assert [c] + s[1..] == s;
  }

  lemma {:induction false} QuoteBodyRoundTrip(s: string, rest: string)
    ensures ParseStringBody(QuoteBody(s) + "\"" + rest) == Some((s, rest))
  {
    if s == [] {
      var input := QuoteBody(s) + "\"" + rest;
      assert input == "\"" + rest;
      assert input[1..] == rest;
    } else {
      QuoteBodyRoundTrip(s[1..], rest);
      QuoteBodyStep(s, rest);
    }
  }

  /** What JSON.stringify writes, JSON.parse reads back, whatever follows it. */
  lemma QuoteRoundTrip(s: string, rest: string)
    ensures ParseString(Quote(s) + rest) == Some((s, rest))
  {
    var input := Quote(s) + rest;
    assert input[1..] == QuoteBody(s) + "\"" + rest;
    QuoteBodyRoundTrip(s, rest);
  }
}

=== FILE: wrappers.dfy ===
/** Failure-compatible Option and Result datatypes used throughout the model. */
module Wrappers {

  datatype Option<+T> = None | Some(value: T) {

    predicate IsFailure() {
      None?
    }

    function PropagateFailure<U>(): Option<U>
      requires None?
    {
      None
    }

    function Extract(): T
      requires Some?
    {
      value
    }
  }

  /** The outcome of an operation that may raise: a value, or the error it raised. */
  datatype Result<+R, +E> = Success(value: R) | Failure(error: E) {

    predicate IsFailure() {
      Failure?
    }

    function PropagateFailure<U>(): Result<U, E>
      requires Failure?
    {
      Failure(error)
    }

    function Extract(): R
      requires Success?
    {
      value
    }
  }
}
